=== FILE: README.md ===
# Tic-tac-toe game service: a Dafny model

This project models the core of a tic-tac-toe web service. It covers two parts.

The first is the game state machine of `GameService`:
- creating a game, which starts `IN_PROGRESS` with X to move;
- the four validation checks a move goes through, in a fixed order (game finished, out of turn, out of bounds, position taken), where the first failure wins;
- appending an accepted move to the game's history;
- deciding the outcome (win, draw, or the turn passing to the other player);
- the win check, which counts the mover's pieces on the lines through the cell just played.

The second is the board projection of `GameDetailsResponse.from`. It derives a 3×3 grid from the ordered move history and copies the game's id, status and turn through unchanged.

Everything is pure functions over immutable datatypes:

| file | module | what it holds |
|---|---|---|
| `model.dfy` | `GameModel` | symbols, statuses, `Game`, `Move`, `MakeMoveCommand`, `GameDto`, failure kinds, Java `int` addition |
| `history.dfy` | `MoveHistory` | the move history: occupancy (`Taken`), the no-repeated-cell property, cell counting |
| `windetection.dfy` | `WinDetection` | `hasPlayerWon` exactly as the service writes it (stream filters and counts), and the geometric rule it is proved equal to |
| `gamedetails.dfy` | `GameDetails` | the board projection and the details record |
| `statemachine.dfy` | `GameStateMachine` | validation, the outcome of a move, and the invariant `Consistent` of every reachable game |
| `service.dfy` | `GameService` | the store, `createNewGame`, `getGame`, `processMove`, `makeMove` with an abstract lock outcome, serialized submissions |
| `scenarios.dfy` | `ServiceScenarios` | the service's unit-test scenarios as lemmas |

## Modelling decisions

- **Coordinates.** Coordinates are Java `int`s (`Int32`). The anti-diagonal filter `m.x + m.y == 2` uses explicit 32-bit wrap-around (`Add32`). This matters only for coordinates off the board, which validation keeps out of every stored history.
- **Store and repository reload.** The repositories are an in-memory `Store`: games by id, and each game's moves in insertion order. The reload after saving the new move is modelled as `moves + [newMove]`. That is the history the repository returns provided each lock holder's writes are committed before the lock passes on (see Commit order). `UnlockBeforeCommit` fixes an interleaving in which a later holder's reads do not yet see the previous holder's move.
- **Board cells.** A board cell is `Option<PlayerSymbol>`. `None` stands for `null` and `Some(p)` for `p.name()`. Writing outside the array raises an index exception in `from`, and the model returns `None` for the whole projection in that case.
- **`makeMove`.** The lock is modelled only by its outcome `LockAttempt` (acquired, timed out, interrupted). A failed wait changes nothing.
- **Failure kinds.** Each failure gets its own `MoveError`. The Java code tells some of them apart only by message: a lock timeout and a finished game are both an `IllegalStateException`. The model follows the failure kinds, not the Java exception classes.
- **Win and draw tests.** The win check counts the mover's pieces along each line through the played cell (`count() == 3`); it does not test the line's cells one by one. `WinDetection.LineCountIffOwned` proves that the count test and the cell test agree on every on-board history without a repeated cell. The draw test looks only at the size of the history (nine moves).
- **New games.** `createNewGame` saves the game record and no moves.
- **Commit order.** `makeMove` runs inside a transaction and releases the game's lock in its `finally` block, that is, before the transaction commits. `RunSerialized` models the intended order, in which each holder's writes are committed before the next holder takes the lock. `UnlockBeforeCommit` models the order the code allows (see Findings).

## Model

| member | source | states |
|---|---|---|
| GameModel.Add32 | src/main/java/softcore/tictactoe/domain/service/GameService.java:140-142 | Java int addition: equals the true sum when it fits in 32 bits, and is congruent to it modulo 2^32 otherwise |
| GameModel.NextPlayer | src/main/java/softcore/tictactoe/domain/service/GameService.java:147-149 | the next player always differs from the current one |
| GameModel.NextPlayerInvolution | src/main/java/softcore/tictactoe/domain/service/GameService.java:147-149 | flipping twice gives back the same player, and X and O map to each other |
| GameModel.WinsOf | src/main/java/softcore/tictactoe/domain/service/GameService.java:91 | the status set by a win is terminal, and it is X_WINS exactly for X and O_WINS exactly for O |
| MoveHistory.NoDupSnoc | src/main/java/softcore/tictactoe/domain/service/GameService.java:115-120 | appending a move on a cell the history does not occupy keeps every cell used at most once |
| MoveHistory.AtMostNineMoves | src/main/java/softcore/tictactoe/domain/service/GameService.java:92 | an on-board history without repeated cells has at most nine moves |
| MoveHistory.NineMovesFillBoard | src/main/java/softcore/tictactoe/domain/service/GameService.java:92-93 | nine such moves occupy every cell, so the size test for a draw means a full board |
| WinDetection.Select | src/main/java/softcore/tictactoe/domain/service/GameService.java:128-142 | a stream filter keeps exactly the moves of the history that pass its test, and never more moves than the history holds |
| WinDetection.SelectKeepsEveryOccurrence | src/main/java/softcore/tictactoe/domain/service/GameService.java:128-142 | a filter keeps each passing move as often as it occurs in the history and drops every failing one, so the result's length is the stream's `count()`, duplicates included |
| WinDetection.AlongIffOnLine | src/main/java/softcore/tictactoe/domain/service/GameService.java:132-142 | on the board, each row, column and diagonal filter keeps exactly the moves whose cell lies on that line |
| WinDetection.LineCountIffOwned | src/main/java/softcore/tictactoe/domain/service/GameService.java:128-142 | for an on-board history with no repeated cell, a line filter counts three of the player's moves if and only if the player occupies all three cells of the line |
| WinDetection.HasPlayerWonIffLineThroughOwned | src/main/java/softcore/tictactoe/domain/service/GameService.java:123-145 | for an on-board history with no repeated cell, the check is true exactly when the mover owns every cell of a board line through the cell just played |
| WinDetection.NewMoveOnlyCompletesItsLines | src/main/java/softcore/tictactoe/domain/service/GameService.java:136-142 | appending a move can complete only a line of the mover that passes through the move's cell, which is why checking those lines suffices |
| GameDetails.EmptyBoard | src/main/java/softcore/tictactoe/api/model/GameDetailsResponse.java:15 | the fresh board is 3×3 with every cell empty |
| GameDetails.Put | src/main/java/softcore/tictactoe/api/model/GameDetailsResponse.java:18-20 | writing a move succeeds exactly when its cell is on the board; it sets that cell to the mover and leaves every other cell as it was |
| GameDetails.Place | src/main/java/softcore/tictactoe/api/model/GameDetailsResponse.java:17-21 | replaying moves keeps a 3×3 board, and fails exactly when some move lies off the board |
| GameDetails.From | src/main/java/softcore/tictactoe/api/model/GameDetailsResponse.java:14-28 | id, status and turn are copied unchanged; the board is 3×3 and each cell shows the last move played there, or is empty |
| GameDetails.PlaceSnoc | src/main/java/softcore/tictactoe/api/model/GameDetailsResponse.java:17-21 | replaying one more move equals writing that move onto the board of the shorter history |
| GameDetails.ProjectShowsLastMove | src/main/java/softcore/tictactoe/api/model/GameDetailsResponse.java:15-21 | each cell of a projected board holds the player of the last move on that cell, or is empty if the cell was never played |
| GameDetails.LastAtIsTheMove | src/main/java/softcore/tictactoe/api/model/GameDetailsResponse.java:17-21 | with no repeated cell, a cell shows `p` exactly when the history holds `p`'s move on that cell |
| GameDetails.BoardShowsMoves | src/main/java/softcore/tictactoe/api/model/GameDetailsResponse.java:15-21 | for a valid history, every move's cell holds that move's player and every unplayed cell stays empty |
| GameDetails.LastAtIgnoresOrder | src/main/java/softcore/tictactoe/api/model/GameDetailsResponse.java:17-21 | with no repeated cell, a cell's content depends only on which moves were played, not on their order |
| GameDetails.BoardIgnoresOrder | src/main/java/softcore/tictactoe/api/model/GameDetailsResponse.java:17-21 | two permutations of a history without repeated cells project to the same board |
| GameDetails.RepeatedCellMakesOrderVisible | src/main/java/softcore/tictactoe/api/model/GameDetailsResponse.java:17-21 | once a cell repeats, two orderings of the same moves give different boards: the no-repeat condition is needed |
| GameStateMachine.NewGame | src/main/java/softcore/tictactoe/domain/service/GameService.java:35-38 | a new game is IN_PROGRESS with X to move, and its empty history is a consistent state |
| GameStateMachine.ValidateGameState | src/main/java/softcore/tictactoe/domain/service/GameService.java:102-121 | the move passes exactly when no check fails; otherwise the reported failure is a check that fails, and every check that runs before it passes |
| GameStateMachine.Apply | src/main/java/softcore/tictactoe/domain/service/GameService.java:78-96 | a finished game rejects every move; an accepted move is appended, is played by the side to move, and ends in a win (turn kept), a draw at nine moves (turn kept), or a flipped turn |
| GameStateMachine.LocalWinCheckIsGlobal | src/main/java/softcore/tictactoe/domain/service/GameService.java:90-96 | in a game where no line is owned yet, the check over lines through the new cell is true exactly when the mover owns any line; the opponent never gains one |
| GameStateMachine.ApplyPreservesConsistent | src/main/java/softcore/tictactoe/domain/service/GameService.java:78-96 | from a consistent state, every accepted move leads to a consistent state |
| GameStateMachine.ConsistentHistoryFitsBoard | src/main/java/softcore/tictactoe/domain/service/GameService.java:92-93 | a reachable history has at most nine moves, and a drawn game has every cell occupied |
| GameStateMachine.TakenIffBoardOccupied | src/main/java/softcore/tictactoe/domain/service/GameService.java:115-118 | the position-taken test of validation agrees with the board shown to clients: a cell is taken exactly when it is not empty |
| GameStateMachine.AcceptedMoveBoard | src/main/java/softcore/tictactoe/domain/service/GameService.java:80-88 | an accepted move changes the board in exactly one cell, its own, which now holds the mover |
| GameService.CreateNewGame | src/main/java/softcore/tictactoe/domain/service/GameService.java:34-42 | creation saves one new IN_PROGRESS game with X to move under the fresh id, touches nothing else, and keeps the store valid |
| GameService.GetGame | src/main/java/softcore/tictactoe/domain/service/GameService.java:45-50 | an unknown id fails with GameNotFound; otherwise the result carries the stored game's id, status and turn and its moves in creation order, and in a valid store that id is the one asked for |
| GameService.ProcessMove | src/main/java/softcore/tictactoe/domain/service/GameService.java:74-100 | an unknown game gives GameNotFound; for a stored game the move is accepted exactly when `Apply` accepts it, and a rejection carries the failure of the earliest validation check that fails (finished, out of turn, out of bounds, taken) and leaves the store unchanged; on acceptance the saved game record, the saved history and the returned details are `Apply`'s new status, turn and history, that history being the old one plus the new move by the side to move |
| GameService.ProcessMoveTouchesOnlyItsGame | src/main/java/softcore/tictactoe/domain/service/GameService.java:87-99 | an accepted move rewrites only its own game and history, and reading the game back returns exactly what the move returned |
| GameService.MakeMove | src/main/java/softcore/tictactoe/domain/service/GameService.java:53-72 | a timed-out or interrupted lock wait fails with its own failure kind and changes nothing; with the lock, the result is that of `processMove` |
| GameService.MakeMovePreservesValid | src/main/java/softcore/tictactoe/domain/service/GameService.java:53-100 | every submission, accepted or not, keeps every stored game in a reachable state |
| GameService.RepeatedMoveRejected | src/main/java/softcore/tictactoe/domain/service/GameService.java:103-109 | the same command submitted again after being accepted is rejected |
| GameService.RejectedStaysRejected | src/main/java/softcore/tictactoe/domain/service/GameService.java:53-72 | a command the store rejects is rejected in every serialized copy, and the store stays unchanged |
| GameService.SameMoveAcceptedAtMostOnce | src/main/java/softcore/tictactoe/domain/service/GameService.java:52-72 | copies of one move, serialized by the game's lock with each holder's writes committed before the next holder reads, are accepted at most once, and the history grows by exactly the number accepted; if the move is legal and some copy gets the lock, exactly one is accepted |
| GameService.UnlockBeforeCommit | src/main/java/softcore/tictactoe/domain/service/GameService.java:52-72 | when the second holder reads before the first commits, two accepted submissions both append their move to the game's history, and two rejections leave the store unchanged |
| GameService.UnlockBeforeCommitAcceptsTwice | src/main/java/softcore/tictactoe/domain/service/GameService.java:52-72 | under that ordering a legal move submitted twice on a valid store is accepted twice; the history grows by two moves on one cell and the store no longer holds a reachable game |
| GameService.NewGameAcceptsOpeningMoveTwice | src/test/java/softcore/tictactoe/api/service/GameServiceIT.java:51-69 | two copies of X's opening move on a new game are both accepted under that ordering, leaving two moves where the concurrency test expects one |
| ServiceScenarios.FirstMoveSwitchesTurn | src/test/java/softcore/tictactoe/api/service/GameServiceTest.java:45-66 | X's first move at (1,1) is stored and passes the turn to O with the game still IN_PROGRESS |
| ServiceScenarios.RowWin | src/test/java/softcore/tictactoe/api/service/GameServiceTest.java:110-135 | completing row 0 ends the game X_WINS with the turn kept at X |
| ServiceScenarios.ColumnWin | src/test/java/softcore/tictactoe/api/service/GameServiceTest.java:137-162 | completing column 0 ends the game X_WINS |
| ServiceScenarios.DiagonalWin | src/test/java/softcore/tictactoe/api/service/GameServiceTest.java:164-189 | completing the main diagonal ends the game X_WINS |
| ServiceScenarios.DrawOnNinthMove | src/test/java/softcore/tictactoe/api/service/GameServiceTest.java:191-223 | a ninth move that completes no line ends the game in a DRAW |
| ServiceScenarios.Rejections | src/test/java/softcore/tictactoe/api/service/GameServiceTest.java:77-241 | a finished game, a wrong player, a taken cell and each of the four out-of-bounds directions are rejected with their own failure |

## Left out

- Per-game locking: the lock map, lazy lock creation, the two-second `tryLock` timeout and interrupt handling. These are concurrency mechanisms. The model keeps only the outcome of the lock wait, as a parameter of `MakeMove`, and treats the lock as serializing submissions (`RunSerialized`).
- GameService.SameMoveAcceptedAtMostOnce: assumes each lock holder's writes are committed before the lock passes on. The code does not ensure this, because the lock is released before the transaction commits (see Findings). Beyond the two-holder case in `UnlockBeforeCommit`, interleavings of overlapping transactions are not modelled.
- Persistence: JPA entities, repositories, `@PrePersist` timestamps and transactions. These are foreign library calls and clock reads. The store is a pair of maps, and insertion order stands in for ordering by creation time.
- UUID generation: the new game's id is a parameter, and `CreateNewGame` requires that the id is not yet used.
- HTTP and wiring: the controller, the facade, the request and command records, `GameCreateResponse` and `GameNotFoundException`. These are plumbing around the core.
- `createNewGame` returns a DTO whose move list is `null`. `CreateNewGame` returns the saved game record instead. `from` applied to such a DTO would throw a null-pointer exception, and that path is not modelled.
- Exception classes and messages: the model keeps one failure kind per exception site, not the Java class or the message text.
- GameService.RunSerialized: its own contract states only that each submission gets one result. What the run achieves is stated by `SameMoveAcceptedAtMostOnce` and `RejectedStaysRejected`.

## Findings

| source | as written | input that shows it | evidently intended | confidence | as-written member | corrected member |
|---|---|---|---|---|---|---|
| src/main/java/softcore/tictactoe/domain/service/GameService.java:52-72 | `makeMove` is `@Transactional` and unlocks in `finally`, so the lock is free before the move and the game update commit; the next holder's reads at lines 75 and 115 can see the pre-move state | two copies of `(game, 0, 0, X)` on a new game: both pass validation and both moves are saved | each holder's writes are committed before the next holder validates, so a move is accepted at most once | medium, not executed; it depends on the database showing only committed data and on there being no uniqueness constraint on a game's cells | GameService.UnlockBeforeCommitAcceptsTwice | GameService.SameMoveAcceptedAtMostOnce |

=== FILE: gamedetails.dfy ===
/**
 * The game-details view: a 3x3 board rebuilt from the ordered move history
 * by writing each move's symbol into its cell, in history order, with the
 * game's id, status and turn copied through.
 */
module GameDetails {
  import opened GameModel
  import opened MoveHistory

  /** A 3x3 grid: each cell is empty or holds a player's symbol. */
  type Board = seq<seq<Option<PlayerSymbol>>>

  datatype GameDetailsResponse =
    GameDetailsResponse(id: GameId, status: GameStatus, playerTurn: PlayerSymbol, board: Board)

  predicate IsGrid(b: Board)
  {
    |b| == 3 && forall i :: 0 <= i < 3 ==> |b[i]| == 3
  }

  /** An all-empty 3x3 grid. */
  function EmptyBoard(): (b: Board)
    ensures IsGrid(b)
    ensures forall x, y :: InBounds(x, y) ==> b[x][y] == None
  {
    [[None, None, None], [None, None, None], [None, None, None]]
  }

  /**
   * Writing one move's symbol into its cell. A coordinate outside the grid
   * makes the write fail, modelled as `None`.
   */
  function Put(b: Board, m: Move): (r: Option<Board>)
    requires IsGrid(b)
    ensures r.Some? <==> InBounds(m.x, m.y)
    ensures r.Some? ==> IsGrid(r.value)
    ensures r.Some? ==> forall x, y :: InBounds(x, y) ==>
              r.value[x][y] == (if x == m.x && y == m.y then Some(m.player) else b[x][y])
  {
    if InBounds(m.x, m.y) then Some(b[m.x := b[m.x][m.y := Some(m.player)]]) else None
  }

  /** The `forEach` over the moves: each move's write, in history order. */
  function Place(b: Board, s: seq<Move>): (r: Option<Board>)
    requires IsGrid(b)
    ensures r.Some? ==> IsGrid(r.value)
    ensures r.Some? <==> AllInBounds(s)
    decreases |s|
  {
    if |s| == 0 then Some(b)
    else
      assert forall i :: 1 <= i < |s| ==> s[1..][i - 1] == s[i];
      match Put(b, s[0])
      case None => None
      case Some(b') => Place(b', s[1..])
  }

  /** The board of a move history. */
  function Project(s: seq<Move>): (r: Option<Board>)
  {
    Place(EmptyBoard(), s)
  }

  /** The symbol of the last move of `s` on (`x`, `y`), if any. */
  function LastAt(s: seq<Move>, x: Int32, y: Int32): (r: Option<PlayerSymbol>)
    ensures r.None? <==> !Taken(s, x, y)
    ensures r.Some? ==> Move(r.value, x, y) in s
  {
    if |s| == 0 then None
    else
      var last := s[|s| - 1];
      var init := s[..|s| - 1];
      assert s == init + [last];
      if last.x == x && last.y == y then Some(last.player) else LastAt(init, x, y)
  }

  /** `GameDetailsResponse.from`: a game's details with its board derived from its moves. */
  function From(dto: GameDto): (r: Option<GameDetailsResponse>)
    ensures r.Some? <==> AllInBounds(dto.moves)
    ensures r.Some? ==> && r.value.id == dto.id
                        && r.value.status == dto.status
                        && r.value.playerTurn == dto.playerTurn
                        && IsGrid(r.value.board)
    ensures r.Some? ==> forall x, y :: InBounds(x, y) ==>
              r.value.board[x][y] == LastAt(dto.moves, x, y)
  {
    ProjectShowsLastMove(dto.moves);
    match Project(dto.moves)
    case None => None
    case Some(b) => Some(GameDetailsResponse(dto.id, dto.status, dto.playerTurn, b))
  }

  /** Writing one more move onto a history is one more write onto its board. */
  lemma {:induction false} PlaceSnoc(b: Board, s: seq<Move>, m: Move)
    requires IsGrid(b)
    ensures Place(b, s + [m]) == (match Place(b, s) case None => None case Some(b') => Put(b', m))
    decreases |s|
  {
    var t := s + [m];
    if |s| == 0 {
      assert t[1..] == [];
    } else {
      assert t[0] == s[0] && t[1..] == s[1..] + [m];
      match Put(b, s[0])
      case None =>
      case Some(b') => PlaceSnoc(b', s[1..], m);
    }
  }

  /** Each cell of a projected board shows the last move played there, or nothing. */
  lemma {:induction false} ProjectShowsLastMove(s: seq<Move>)
    ensures Project(s).Some? ==> forall x, y :: InBounds(x, y) ==>
              Project(s).value[x][y] == LastAt(s, x, y)
  {
    if |s| > 0 {
      var init, last := s[..|s| - 1], s[|s| - 1];
      assert s == init + [last];
      PlaceSnoc(EmptyBoard(), init, last);
      ProjectShowsLastMove(init);
    }
  }

  /** Without repeated cells, the last move on a cell is the only one there. */
  lemma LastAtIsTheMove(s: seq<Move>, p: PlayerSymbol, x: Int32, y: Int32)
    requires NoDupCells(s)
    ensures LastAt(s, x, y) == Some(p) <==> Move(p, x, y) in s
  {
    if Move(p, x, y) in s {
      var q := LastAt(s, x, y).value;
      var i :| 0 <= i < |s| && s[i] == Move(p, x, y);
      var j :| 0 <= j < |s| && s[j] == Move(q, x, y);
      assert i == j;
    }
  }

  /**
   * The board of a history without repeated cells shows each move's symbol
   * on its cell and leaves every unplayed cell empty.
   */
  lemma BoardShowsMoves(s: seq<Move>)
    requires AllInBounds(s) && NoDupCells(s)
    ensures Project(s).Some? && IsGrid(Project(s).value)
    ensures forall i :: 0 <= i < |s| ==> Project(s).value[s[i].x][s[i].y] == Some(s[i].player)
    ensures forall x: Int32, y: Int32 :: InBounds(x, y) && !Taken(s, x, y) ==> Project(s).value[x][y] == None
  {
    ProjectShowsLastMove(s);
    forall i | 0 <= i < |s|
      ensures Project(s).value[s[i].x][s[i].y] == Some(s[i].player)
    {
      LastAtIsTheMove(s, s[i].player, s[i].x, s[i].y);
    }
  }

  /** Two 3x3 boards that agree on every cell are equal. */
  lemma GridsAgreeCellwise(ba: Board, bb: Board)
    requires IsGrid(ba) && IsGrid(bb)
    requires forall x, y :: InBounds(x, y) ==> ba[x][y] == bb[x][y]
    ensures ba == bb
  {
    forall i | 0 <= i < 3
      ensures ba[i] == bb[i]
    {
      assert forall j | 0 <= j < 3 :: ba[i][j] == bb[i][j];
    }
  }

  /** Without repeated cells, a cell's content depends only on which moves were played. */
  lemma LastAtIgnoresOrder(a: seq<Move>, b: seq<Move>, x: Int32, y: Int32)
    requires NoDupCells(a) && NoDupCells(b)
    requires forall m :: m in a <==> m in b
    ensures LastAt(a, x, y) == LastAt(b, x, y)
  {
    match LastAt(a, x, y)
    case Some(p) =>
      LastAtIsTheMove(a, p, x, y);
      LastAtIsTheMove(b, p, x, y);
    case None =>
      assert forall i | 0 <= i < |b| :: b[i] in a;
  }

  /** Histories holding the same moves without repeated cells give the same board, whatever the order. */
  lemma BoardIgnoresOrder(a: seq<Move>, b: seq<Move>)
    requires NoDupCells(a) && NoDupCells(b)
    requires multiset(a) == multiset(b)
    ensures Project(a) == Project(b)
  {
    assert forall m :: m in a <==> m in b by {
      forall m
        ensures m in a <==> m in b
      {
        assert m in a <==> m in multiset(a);
        assert m in b <==> m in multiset(b);
      }
    }
    assert AllInBounds(a) <==> AllInBounds(b) by {
      if !AllInBounds(a) {
        var i :| 0 <= i < |a| && !InBounds(a[i].x, a[i].y);
        assert a[i] in b;
      }
      if !AllInBounds(b) {
        var i :| 0 <= i < |b| && !InBounds(b[i].x, b[i].y);
        assert b[i] in a;
      }
    }
    if AllInBounds(a) {
      ProjectShowsLastMove(a);
      ProjectShowsLastMove(b);
      forall x: Int32, y: Int32 | InBounds(x, y)
        ensures Project(a).value[x][y] == Project(b).value[x][y]
      {
        LastAtIgnoresOrder(a, b, x, y);
      }
      GridsAgreeCellwise(Project(a).value, Project(b).value);
    }
  }

  /** With a repeated cell the last write wins, so the order of the moves shows. */
  lemma RepeatedCellMakesOrderVisible()
    ensures var a := [Move(X, 0, 0), Move(O, 0, 0)];
            var b := [Move(O, 0, 0), Move(X, 0, 0)];
            multiset(a) == multiset(b) && Project(a) != Project(b)
  {
    var a := [Move(X, 0, 0), Move(O, 0, 0)];
    var b := [Move(O, 0, 0), Move(X, 0, 0)];
    ProjectShowsLastMove(a);
    ProjectShowsLastMove(b);
    assert LastAt(a, 0, 0) == Some(O);
    assert LastAt(b, 0, 0) == Some(X);
  }
}

=== FILE: history.dfy ===
/**
 * A game's move history: the ordered sequence of its moves, the occupancy
 * test that validation runs over it, and the counting facts that tie the
 * number of moves to the number of distinct cells they cover.
 */
module MoveHistory {
  import opened GameModel

  /** Every move of `s` lies on the 3x3 board. */
  predicate AllInBounds(s: seq<Move>)
  {
    forall i :: 0 <= i < |s| ==> InBounds(s[i].x, s[i].y)
  }

  /** No two moves of `s` share a cell. */
  predicate NoDupCells(s: seq<Move>)
  {
    forall i, j :: 0 <= i < j < |s| ==> CellOf(s[i]) != CellOf(s[j])
  }

  /** Some move of `s` sits on (`x`, `y`): the occupancy test of the validation. */
  predicate Taken(s: seq<Move>, x: Int32, y: Int32)
  {
    exists i :: 0 <= i < |s| && s[i].x == x && s[i].y == y
  }

  /** The cells the moves of `s` cover. */
  function CellSet(s: seq<Move>): (r: set<Cell>)
    ensures forall c :: c in r <==> exists i :: 0 <= i < |s| && CellOf(s[i]) == c
  {
    if |s| == 0 then {}
    else
      var init := s[..|s| - 1];
      assert forall i :: 0 <= i < |init| ==> init[i] == s[i];
      CellSet(init) + {CellOf(s[|s| - 1])}
  }

  /** The nine cells of the board. */
  function Grid(): (r: set<Cell>)
    ensures forall c :: c in r <==> InBounds(c.x, c.y)
    ensures |r| == 9
  {
    {Cell(0, 0), Cell(0, 1), Cell(0, 2),
     Cell(1, 0), Cell(1, 1), Cell(1, 2),
     Cell(2, 0), Cell(2, 1), Cell(2, 2)}
  }

  lemma SubsetCard(a: set<Cell>, b: set<Cell>)
    requires a <= b
    ensures |a| <= |b|
    decreases a
  {
    if a != {} {
      var z :| z in a;
      SubsetCard(a - {z}, b - {z});
    }
  }

  /** A subset as large as its superset is the whole superset. */
  lemma SubsetSameCardEqual(a: set<Cell>, b: set<Cell>)
    requires a <= b && |a| == |b|
    ensures a == b
  {
    if a != b {
      var z :| z in b && z !in a;
      SubsetCard(a, b - {z});
    }
  }

  lemma NoDupSnoc(s: seq<Move>, m: Move)
    requires NoDupCells(s)
    requires !Taken(s, m.x, m.y)
    ensures NoDupCells(s + [m])
  {
    var t := s + [m];
    forall i, j | 0 <= i < j < |t|
      ensures CellOf(t[i]) != CellOf(t[j])
    {
      if j == |s| {
        assert t[i] == s[i];
      }
    }
  }

  lemma {:induction false} DistinctCellsCount(s: seq<Move>)
    requires NoDupCells(s)
    ensures |CellSet(s)| == |s|
  {
    if |s| > 0 {
      var init := s[..|s| - 1];
      assert NoDupCells(init) by {
        assert forall i :: 0 <= i < |init| ==> init[i] == s[i];
      }
      DistinctCellsCount(init);
      assert forall i :: 0 <= i < |init| ==> CellOf(init[i]) != CellOf(s[|s| - 1]) by {
        assert forall i :: 0 <= i < |init| ==> init[i] == s[i];
      }
    }
  }

  /** A history without repeated cells on the board has at most nine moves. */
  lemma AtMostNineMoves(s: seq<Move>)
    requires AllInBounds(s) && NoDupCells(s)
    ensures |s| <= 9
  {
    DistinctCellsCount(s);
    SubsetCard(CellSet(s), Grid());
  }

  /** Nine moves without repeated cells cover the whole board. */
  lemma NineMovesFillBoard(s: seq<Move>)
    requires AllInBounds(s) && NoDupCells(s) && |s| == 9
    ensures forall x: Int32, y: Int32 :: InBounds(x, y) ==> Taken(s, x, y)
  {
    DistinctCellsCount(s);
    SubsetSameCardEqual(CellSet(s), Grid());
    forall x: Int32, y: Int32 | InBounds(x, y)
      ensures Taken(s, x, y)
    {
      assert Cell(x, y) in Grid();
      var i :| 0 <= i < |s| && CellOf(s[i]) == Cell(x, y);
    }
  }
}

=== FILE: model.dfy ===
/**
 * Value types of the tic-tac-toe service: player symbols, game statuses,
 * the game record, moves, the move command, the data transfer record and
 * the failure kinds a move can be rejected with.
 */
module GameModel {

  /** A Java `int`, the type of every move coordinate. */
  type Int32 = i: int | -0x8000_0000 <= i < 0x8000_0000

  /** Java's `a + b` on two ints: two's-complement addition wrapping modulo 2^32. */
  function Add32(a: Int32, b: Int32): (r: Int32)
    ensures -0x8000_0000 <= a + b < 0x8000_0000 ==> r == a + b
    ensures (a + b - r) % 0x1_0000_0000 == 0
  {
    var s := (a + b) % 0x1_0000_0000;
    if s < 0x8000_0000 then s else s - 0x1_0000_0000
  }

  datatype PlayerSymbol = X | O

  datatype GameStatus = InProgress | XWins | OWins | Draw

  /** Games are identified by a UUID; the model only needs equality on identities. */
  type GameId = nat

  /** The persisted game record (GameEntity without its timestamps). */
  datatype Game = Game(id: GameId, status: GameStatus, playerTurn: PlayerSymbol)

  /** One persisted move of a game (MoveEntity without its identity and timestamp). */
  datatype Move = Move(player: PlayerSymbol, x: Int32, y: Int32)

  /** A request to place `player` at (`x`, `y`) in game `gameId`. */
  datatype MakeMoveCommand = MakeMoveCommand(gameId: GameId, x: Int32, y: Int32, player: PlayerSymbol)

  /** What the service hands back: the game's fields and its moves in creation order. */
  datatype GameDto = GameDto(id: GameId, status: GameStatus, playerTurn: PlayerSymbol, moves: seq<Move>)

  /** The ways a move submission can fail, one per exception the service throws. */
  datatype MoveError =
    | GameNotFound   // no game with that id
    | GameFinished   // the game is no longer in progress
    | OutOfTurn      // the command's player is not the one to move
    | OutOfBounds    // a coordinate lies outside 0..2
    | PositionTaken  // some move already occupies the cell
    | LockTimeout    // the per-game lock was not acquired in time
    | Interrupted    // the thread was interrupted while waiting for the lock

  datatype Option<T> = None | Some(value: T)

  datatype Result<T> = Ok(value: T) | Err(error: MoveError)

  /** A board coordinate. */
  datatype Cell = Cell(x: Int32, y: Int32)

  function CellOf(m: Move): Cell
  {
    Cell(m.x, m.y)
  }

  predicate InBounds(x: int, y: int)
  {
    0 <= x <= 2 && 0 <= y <= 2
  }

  /** The symbol that moves after `p`. */
  function NextPlayer(p: PlayerSymbol): (q: PlayerSymbol)
    ensures q != p
  {
    if p == X then O else X
  }

  /** The status a win by `p` ends the game with. */
  function WinsOf(p: PlayerSymbol): (s: GameStatus)
    ensures s != InProgress && s != Draw
    ensures s == XWins <==> p == X
    ensures s == OWins <==> p == O
  {
    match p
    case X => XWins
    case O => OWins
  }

  /** The symbol to move once `n` moves have been played in a game that X opens. */
  function PlayerAt(n: nat): (p: PlayerSymbol)
    ensures p == X <==> n % 2 == 0
  {
    if n % 2 == 0 then X else O
  }

  lemma NextPlayerInvolution(p: PlayerSymbol)
    ensures NextPlayer(NextPlayer(p)) == p
    ensures NextPlayer(p) == (if p == X then O else X)
  {
  }

  lemma PlayerAtAlternates(n: nat)
    ensures PlayerAt(n + 1) == NextPlayer(PlayerAt(n))
  {
  }
}

=== FILE: scenarios.dfy ===
/**
 * Concrete runs of the state machine, one per behaviour the service's unit
 * tests pin down: the turn passing after a first move, wins along a row, a
 * column and a diagonal, a draw on the ninth move, and each rejection.
 */
module ServiceScenarios {
  import opened GameModel
  import opened MoveHistory
  import opened WinDetection
  import opened GameStateMachine

  const Fresh: Game := Game(1, InProgress, X)

  function Cmd(x: Int32, y: Int32, p: PlayerSymbol): MakeMoveCommand
  {
    MakeMoveCommand(1, x, y, p)
  }

  lemma FirstMoveSwitchesTurn()
    ensures Apply(Fresh, [], Cmd(1, 1, X)) == Ok(Snapshot(Game(1, InProgress, O), [Move(X, 1, 1)]))
  {
    assert !HasPlayerWon([Move(X, 1, 1)], Move(X, 1, 1));
  }

  /*
   * Each win or draw below is proved through the win-detection lemmas rather
   * than by unfolding the stream filters on the literal history.
   */

  lemma RowWin()
    ensures var r := Apply(Fresh, [Move(X, 0, 0), Move(X, 0, 1)], Cmd(0, 2, X));
            r.Ok? && r.value.game == Game(1, XWins, X)
  {
    var before := [Move(X, 0, 0), Move(X, 0, 1)];
    var all := before + [Move(X, 0, 2)];
    assert !Taken(before, 0, 2);
    assert all[0] == Move(X, 0, 0) && all[1] == Move(X, 0, 1) && all[2] == Move(X, 0, 2);
    LineThroughMoveWins(all, Move(X, 0, 2), Row(0));
  }

  lemma ColumnWin()
    ensures var r := Apply(Fresh, [Move(X, 0, 0), Move(X, 1, 0)], Cmd(2, 0, X));
            r.Ok? && r.value.game == Game(1, XWins, X)
  {
    var before := [Move(X, 0, 0), Move(X, 1, 0)];
    var all := before + [Move(X, 2, 0)];
    assert !Taken(before, 2, 0);
    assert all[0] == Move(X, 0, 0) && all[1] == Move(X, 1, 0) && all[2] == Move(X, 2, 0);
    LineThroughMoveWins(all, Move(X, 2, 0), Col(0));
  }

  lemma DiagonalWin()
    ensures var r := Apply(Fresh, [Move(X, 0, 0), Move(X, 1, 1)], Cmd(2, 2, X));
            r.Ok? && r.value.game == Game(1, XWins, X)
  {
    var before := [Move(X, 0, 0), Move(X, 1, 1)];
    var all := before + [Move(X, 2, 2)];
    assert !Taken(before, 2, 2);
    assert all[0] == Move(X, 0, 0) && all[1] == Move(X, 1, 1) && all[2] == Move(X, 2, 2);
    LineThroughMoveWins(all, Move(X, 2, 2), MainDiagonal);
  }

  /** The eight moves before the drawing move of the service's draw scenario. */
  const DrawnBefore: seq<Move> :=
    [Move(O, 0, 0), Move(X, 0, 1), Move(O, 0, 2),
     Move(X, 1, 0), Move(O, 1, 1), Move(X, 1, 2),
     Move(O, 2, 0), Move(X, 2, 1)]

  lemma DrawOnNinthMove()
    ensures var r := Apply(Fresh, DrawnBefore, Cmd(2, 2, X));
            r.Ok? && r.value.game == Game(1, Draw, X)
  {
    var all := DrawnBefore + [Move(X, 2, 2)];
    DrawScenarioFacts();
    NoLineThroughMoveNoWin(all, Move(X, 2, 2));
    assert ValidateGameState(Fresh, DrawnBefore, Cmd(2, 2, X)) == None;
    assert Conclude(Fresh, all, Move(X, 2, 2)) == Game(1, Draw, X);
  }

  lemma DrawScenarioFacts()
    ensures var all := DrawnBefore + [Move(X, 2, 2)];
            && !Taken(DrawnBefore, 2, 2) && |all| == 9
            && AllInBounds(all) && NoDupCells(all)
            && Move(X, 2, 0) !in all && Move(X, 0, 2) !in all && Move(X, 0, 0) !in all
  {
  }

  lemma LineThroughMoveWins(all: seq<Move>, m: Move, l: Line)
    requires AllInBounds(all) && NoDupCells(all) && InBounds(m.x, m.y)
    requires l in AllLines && CellOf(m) in LineCells(l) && Owns(all, m.player, l)
    ensures HasPlayerWon(all, m)
  {
    HasPlayerWonIffLineThroughOwned(all, m);
  }

  lemma NoLineThroughMoveNoWin(all: seq<Move>, m: Move)
    requires AllInBounds(all) && NoDupCells(all) && InBounds(m.x, m.y)
    requires forall l <- AllLines :: CellOf(m) in LineCells(l) ==> !Owns(all, m.player, l)
    ensures !HasPlayerWon(all, m)
  {
    HasPlayerWonIffLineThroughOwned(all, m);
  }

  lemma Rejections()
    ensures Apply(Fresh.(status := Draw), [], Cmd(1, 1, X)) == Err(GameFinished)
    ensures Apply(Fresh, [], Cmd(1, 1, O)) == Err(OutOfTurn)
    ensures Apply(Fresh, [Move(X, 0, 0)], Cmd(0, 0, X)) == Err(PositionTaken)
    ensures Apply(Fresh, [], Cmd(-1, 1, X)) == Err(OutOfBounds)
    ensures Apply(Fresh, [], Cmd(1, -1, X)) == Err(OutOfBounds)
    ensures Apply(Fresh, [], Cmd(3, 1, X)) == Err(OutOfBounds)
    ensures Apply(Fresh, [], Cmd(1, 3, X)) == Err(OutOfBounds)
  {
    assert [Move(X, 0, 0)][0].x == 0;
  }
}

=== FILE: service.dfy ===
/**
 * The game service over an in-memory store: creating a game, reading a
 * game, submitting a move (`processMove`) and the lock-guarded entry point
 * (`makeMove`). The store keeps each game's moves in insertion order, which
 * is the creation order the repository query sorts by.
 */
module GameService {
  import opened GameModel
  import opened MoveHistory
  import opened GameStateMachine

  /** The two repositories: game records by id, and each game's moves in creation order. */
  datatype Store = Store(games: map<GameId, Game>, moves: map<GameId, seq<Move>>)

  /** What `tryLock` on the game's lock came to. */
  datatype LockAttempt = Acquired | TimedOut | InterruptedWhileWaiting

  /** `findAllByGameIdOrderByCreatedAtAsc`: a game's moves, empty when it has none. */
  function MovesOf(store: Store, id: GameId): seq<Move>
  {
    if id in store.moves then store.moves[id] else []
  }

  /** Every stored game is filed under its own id and is in a reachable state; moves belong to stored games. */
  predicate Valid(store: Store)
  {
    && store.moves.Keys <= store.games.Keys
    && forall id | id in store.games :: store.games[id].id == id && Consistent(store.games[id], MovesOf(store, id))
  }

  /** The store after saving game `id` and its moves as `s` holds them. */
  function Save(store: Store, id: GameId, s: Snapshot): Store
  {
    Store(store.games[id := s.game], store.moves[id := s.moves])
  }

  /** `createNewGame`: saves a fresh game under the (freshly generated) id `id`. */
  function CreateNewGame(store: Store, id: GameId): (r: (Store, Game))
    requires id !in store.games
    ensures r.1.id == id && r.1.status == InProgress && r.1.playerTurn == X
    ensures r.0.games == store.games[id := r.1] && r.0.moves == store.moves
    ensures Valid(store) ==> Valid(r.0) && MovesOf(r.0, id) == []
  {
    var game := NewGame(id);
    (Store(store.games[id := game], store.moves), game)
  }

  /** `getGame`: the game's fields with its moves, or `GameNotFound`. */
  function GetGame(store: Store, id: GameId): (r: Result<GameDto>)
    ensures r.Err? <==> id !in store.games
    ensures r.Err? ==> r.error == GameNotFound
    ensures r.Ok? ==> && r.value.id == store.games[id].id
                      && r.value.status == store.games[id].status
                      && r.value.playerTurn == store.games[id].playerTurn
                      && r.value.moves == MovesOf(store, id)
    ensures Valid(store) && r.Ok? ==> r.value.id == id
  {
    if id !in store.games then Err(GameNotFound)
    else
      var game := store.games[id];
      Ok(GameDto(game.id, game.status, game.playerTurn, MovesOf(store, id)))
  }

  /**
   * `processMove`: load the game, validate, save the move, conclude, save
   * the game. Each result is paired with the store as it stands afterwards.
   */
  function ProcessMove(store: Store, cmd: MakeMoveCommand): (r: (Store, Result<GameDto>))
    ensures r.1.Err? ==> r.0 == store
    ensures cmd.gameId !in store.games ==> r.1 == Err(GameNotFound)
    ensures cmd.gameId in store.games && store.games[cmd.gameId].status != InProgress ==>
              r.1 == Err(GameFinished)
    ensures r.1.Ok? ==> && cmd.gameId in store.games
                        && cmd.player == store.games[cmd.gameId].playerTurn
                        && MovesOf(r.0, cmd.gameId) == MovesOf(store, cmd.gameId) + [Move(cmd.player, cmd.x, cmd.y)]
    ensures cmd.gameId in store.games ==>
              var a := Apply(store.games[cmd.gameId], MovesOf(store, cmd.gameId), cmd);
              && (r.1.Err? <==> a.Err?)
              && (a.Err? ==> r.1.error == a.error)
              && (a.Ok? ==> && cmd.gameId in r.0.games && r.0.games[cmd.gameId] == a.value.game
                            && MovesOf(r.0, cmd.gameId) == a.value.moves
                            && r.1.value == GameDto(a.value.game.id, a.value.game.status, a.value.game.playerTurn, a.value.moves))
  {
    if cmd.gameId !in store.games then (store, Err(GameNotFound))
    else
      var game := store.games[cmd.gameId];
      match Apply(game, MovesOf(store, cmd.gameId), cmd)
      case Err(e) => (store, Err(e))
      case Ok(s) =>
        var store' := Save(store, cmd.gameId, s);
        (store', Ok(GameDto(s.game.id, s.game.status, s.game.playerTurn, s.moves)))
  }

  /**
   * An accepted move rewrites only its own game, and reading that game back
   * returns exactly what the submission returned.
   */
  lemma ProcessMoveTouchesOnlyItsGame(store: Store, cmd: MakeMoveCommand)
    requires ProcessMove(store, cmd).1.Ok?
    ensures var store' := ProcessMove(store, cmd).0;
            && store'.games.Keys == store.games.Keys
            && (forall id | id in store.games && id != cmd.gameId ::
                  store'.games[id] == store.games[id] && MovesOf(store', id) == MovesOf(store, id))
            && GetGame(store', cmd.gameId) == ProcessMove(store, cmd).1
  {
  }

  /** `makeMove`: `processMove` under the game's lock; a failed lock wait changes nothing. */
  function MakeMove(store: Store, cmd: MakeMoveCommand, lock: LockAttempt): (r: (Store, Result<GameDto>))
    ensures lock == TimedOut ==> r == (store, Err(LockTimeout))
    ensures lock == InterruptedWhileWaiting ==> r == (store, Err(Interrupted))
    ensures lock == Acquired ==> r == ProcessMove(store, cmd)
  {
    match lock
    case TimedOut => (store, Err(LockTimeout))
    case InterruptedWhileWaiting => (store, Err(Interrupted))
    case Acquired => ProcessMove(store, cmd)
  }

  /** Every move submission keeps the store valid. */
  lemma MakeMovePreservesValid(store: Store, cmd: MakeMoveCommand, lock: LockAttempt)
    requires Valid(store)
    ensures Valid(MakeMove(store, cmd, lock).0)
  {
    if lock == Acquired && cmd.gameId in store.games {
      var id := cmd.gameId;
      var game := store.games[id];
      var r := Apply(game, MovesOf(store, id), cmd);
      if r.Ok? {
        ApplyPreservesConsistent(game, MovesOf(store, id), cmd);
        SaveKeepsValid(store, id, r.value);
      }
    }
  }

  /** Saving a reachable state of a stored game under its own id keeps the store valid. */
  lemma SaveKeepsValid(store: Store, id: GameId, s: Snapshot)
    requires Valid(store) && id in store.games
    requires s.game.id == id && Consistent(s.game, s.moves)
    ensures Valid(Save(store, id, s))
  {
    var store' := Save(store, id, s);
    forall other | other in store'.games
      ensures store'.games[other].id == other && Consistent(store'.games[other], MovesOf(store', other))
    {
      if other != id {
        assert MovesOf(store', other) == MovesOf(store, other);
      }
    }
  }

  /**
   * The submissions `cmds`, each with its lock outcome, handled one after
   * another as the per-game lock orders them, each holder's writes being
   * committed before the lock passes to the next holder.
   */
  function RunSerialized(store: Store, cmds: seq<MakeMoveCommand>, locks: seq<LockAttempt>): (r: (Store, seq<Result<GameDto>>))
    requires |cmds| == |locks|
    ensures |r.1| == |cmds|
    decreases |cmds|
  {
    if |cmds| == 0 then (store, [])
    else
      var first := MakeMove(store, cmds[0], locks[0]);
      var rest := RunSerialized(first.0, cmds[1..], locks[1..]);
      (rest.0, [first.1] + rest.1)
  }

  function AcceptedCount(rs: seq<Result<GameDto>>): nat
  {
    if |rs| == 0 then 0 else (if rs[0].Ok? then 1 else 0) + AcceptedCount(rs[1..])
  }

  /** Once a command is accepted, the same command submitted again is rejected. */
  lemma RepeatedMoveRejected(store: Store, cmd: MakeMoveCommand)
    requires ProcessMove(store, cmd).1.Ok?
    ensures ProcessMove(ProcessMove(store, cmd).0, cmd).1.Err?
  {
    var id := cmd.gameId;
    var game := store.games[id];
    var s := Apply(game, MovesOf(store, id), cmd).value;
    assert ProcessMove(store, cmd).0.games[id] == s.game;
  }

  /** A store that rejects a command rejects every serialized copy of it and stays as it is. */
  lemma {:induction false} RejectedStaysRejected(store: Store, cmd: MakeMoveCommand, cmds: seq<MakeMoveCommand>, locks: seq<LockAttempt>)
    requires |cmds| == |locks| && forall i :: 0 <= i < |cmds| ==> cmds[i] == cmd
    requires ProcessMove(store, cmd).1.Err?
    ensures RunSerialized(store, cmds, locks).0 == store
    ensures AcceptedCount(RunSerialized(store, cmds, locks).1) == 0
    decreases |cmds|
  {
    if |cmds| > 0 {
      RejectedStaysRejected(store, cmd, cmds[1..], locks[1..]);
    }
  }

  /**
   * Concurrent submissions of one move, serialized by the game's lock, are
   * accepted at most once and add at most one move to the game; when some
   * submission gets the lock and the move is legal, exactly one is accepted.
   */
  lemma {:induction false} SameMoveAcceptedAtMostOnce(store: Store, cmd: MakeMoveCommand, cmds: seq<MakeMoveCommand>, locks: seq<LockAttempt>)
    requires |cmds| == |locks| && forall i :: 0 <= i < |cmds| ==> cmds[i] == cmd
    ensures var r := RunSerialized(store, cmds, locks);
            && AcceptedCount(r.1) <= 1
            && |MovesOf(r.0, cmd.gameId)| == |MovesOf(store, cmd.gameId)| + AcceptedCount(r.1)
    ensures (exists i :: 0 <= i < |locks| && locks[i] == Acquired) && ProcessMove(store, cmd).1.Ok? ==>
              AcceptedCount(RunSerialized(store, cmds, locks).1) == 1
    decreases |cmds|
  {
    if |cmds| > 0 {
      var first := MakeMove(store, cmd, locks[0]);
      var rest := RunSerialized(first.0, cmds[1..], locks[1..]);
      assert RunSerialized(store, cmds, locks) == (rest.0, [first.1] + rest.1);
      assert ([first.1] + rest.1)[1..] == rest.1;
      assert AcceptedCount([first.1] + rest.1) == (if first.1.Ok? then 1 else 0) + AcceptedCount(rest.1);
      assert forall i :: 0 <= i < |cmds[1..]| ==> cmds[1..][i] == cmd;
      if first.1.Ok? {
        assert locks[0] == Acquired && first == ProcessMove(store, cmd);
        RepeatedMoveRejected(store, cmd);
        RejectedStaysRejected(first.0, cmd, cmds[1..], locks[1..]);
      } else {
        assert first.0 == store;
        SameMoveAcceptedAtMostOnce(store, cmd, cmds[1..], locks[1..]);
        if locks[0] != Acquired && (exists i :: 0 <= i < |locks| && locks[i] == Acquired) {
          var i :| 0 <= i < |locks| && locks[i] == Acquired;
          assert locks[1..][i - 1] == Acquired;
        }
      }
    }
  }

  /** The store once a transaction that inserted move `m` and updated game `id` to `g` has committed. */
  function Commit(store: Store, id: GameId, m: Move, g: Game): (r: Store)
    ensures r.games == store.games[id := g]
    ensures MovesOf(r, id) == MovesOf(store, id) + [m]
    ensures forall other | other != id :: MovesOf(r, other) == MovesOf(store, other)
  {
    Store(store.games[id := g], store.moves[id := MovesOf(store, id) + [m]])
  }

  /**
   * Two submissions to one game in the order the code allows when the lock
   * is released before the transaction around it commits: the second holder
   * takes the lock after the first releases it but before the first's writes
   * are visible, so both validate against `store`. Both move inserts then
   * commit, and the game record keeps the later update.
   */
  function UnlockBeforeCommit(store: Store, a: MakeMoveCommand, b: MakeMoveCommand): (r: (Store, Result<GameDto>, Result<GameDto>))
    requires a.gameId == b.gameId
    ensures r.1.Err? && r.2.Err? ==> r.0 == store
    ensures r.1.Ok? && r.2.Ok? ==>
              MovesOf(r.0, a.gameId) == MovesOf(store, a.gameId) + [Move(a.player, a.x, a.y), Move(b.player, b.x, b.y)]
  {
    var ra := ProcessMove(store, a).1;
    var rb := ProcessMove(store, b).1;
    var afterA :=
      if ra.Ok? then Commit(store, a.gameId, Move(a.player, a.x, a.y), Game(ra.value.id, ra.value.status, ra.value.playerTurn))
      else store;
    var afterB :=
      if rb.Ok? then Commit(afterA, b.gameId, Move(b.player, b.x, b.y), Game(rb.value.id, rb.value.status, rb.value.playerTurn))
      else afterA;
    assert ra.Err? ==> afterA == store;
    assert ra.Err? && rb.Err? ==> afterB == store;
    (afterB, ra, rb)
  }

  /**
   * Under that ordering one legal move submitted twice is accepted twice:
   * the game's history gains the same cell twice, and the store no longer
   * holds a reachable game.
   */
  lemma UnlockBeforeCommitAcceptsTwice(store: Store, cmd: MakeMoveCommand)
    requires Valid(store)
    requires ProcessMove(store, cmd).1.Ok?
    ensures var r := UnlockBeforeCommit(store, cmd, cmd);
            && r.1.Ok? && r.2.Ok?
            && |MovesOf(r.0, cmd.gameId)| == |MovesOf(store, cmd.gameId)| + 2
            && !Valid(r.0)
  {
    var r := UnlockBeforeCommit(store, cmd, cmd);
    var id, n := cmd.gameId, |MovesOf(store, cmd.gameId)|;
    var s := MovesOf(r.0, id);
    assert id in r.0.games;
    assert s[n] == s[n + 1] == Move(cmd.player, cmd.x, cmd.y);
    assert !NoDupCells(s);
  }

  /** Two copies of X's opening move on a new game, as the concurrency test submits them, are both accepted. */
  lemma NewGameAcceptsOpeningMoveTwice()
    ensures var store := Store(map[1 := NewGame(1)], map[]);
            var r := UnlockBeforeCommit(store, MakeMoveCommand(1, 0, 0, X), MakeMoveCommand(1, 0, 0, X));
            r.1.Ok? && r.2.Ok? && |MovesOf(r.0, 1)| == 2
  {
    var store := Store(map[1 := NewGame(1)], map[]);
    assert MovesOf(store, 1) == [];
    assert Valid(store);
    UnlockBeforeCommitAcceptsTwice(store, MakeMoveCommand(1, 0, 0, X));
  }
}

=== FILE: statemachine.dfy ===
/**
 * The move state machine of the game service: the four validation checks,
 * run in a fixed order with the first failure winning, and the outcome of
 * an accepted move (win, draw, or the turn passing to the other player).
 * `Consistent` describes every state a game can reach from creation; it is
 * preserved by every accepted move.
 */
module GameStateMachine {
  import opened GameModel
  import opened MoveHistory
  import opened WinDetection
  import opened GameDetails

  /** A game together with its move history. */
  datatype Snapshot = Snapshot(game: Game, moves: seq<Move>)

  /** The game record `createNewGame` saves. */
  function NewGame(id: GameId): (g: Game)
    ensures g.id == id && g.status == InProgress && g.playerTurn == X
    ensures Consistent(g, [])
  {
    EmptyHistoryOwnsNoLine(X);
    EmptyHistoryOwnsNoLine(O);
    Game(id, InProgress, X)
  }

  lemma EmptyHistoryOwnsNoLine(p: PlayerSymbol)
    ensures !OwnsAnyLine([], p)
  {
    forall l | l in AllLines
      ensures !Owns([], p, l)
    {
      LineCellsInGrid(l);
      var c :| c in LineCells(l);
    }
  }

  /** Whether the validation check that rejects with `e` fails on this command. */
  predicate Violates(e: MoveError, game: Game, moves: seq<Move>, cmd: MakeMoveCommand)
  {
    match e
    case GameFinished => game.status != InProgress
    case OutOfTurn => cmd.player != game.playerTurn
    case OutOfBounds => !InBounds(cmd.x, cmd.y)
    case PositionTaken => Taken(moves, cmd.x, cmd.y)
    case _ => false
  }

  /** The position of each validation check in the order the service runs them. */
  function CheckOrder(e: MoveError): nat
  {
    match e
    case GameFinished => 0
    case OutOfTurn => 1
    case OutOfBounds => 2
    case PositionTaken => 3
    case _ => 4
  }

  /**
   * `validateGameState`: the failure of the earliest check that fails, or
   * `None` when the move is legal.
   */
  function ValidateGameState(game: Game, moves: seq<Move>, cmd: MakeMoveCommand): (r: Option<MoveError>)
    ensures r.None? <==> forall e :: !Violates(e, game, moves, cmd)
    ensures r.Some? ==> Violates(r.value, game, moves, cmd)
    ensures r.Some? ==> forall e :: CheckOrder(e) < CheckOrder(r.value) ==> !Violates(e, game, moves, cmd)
  {
    if game.status != InProgress then
      assert Violates(GameFinished, game, moves, cmd);
      Some(GameFinished)
    else if cmd.player != game.playerTurn then
      assert Violates(OutOfTurn, game, moves, cmd);
      Some(OutOfTurn)
    else if !InBounds(cmd.x, cmd.y) then
      assert Violates(OutOfBounds, game, moves, cmd);
      Some(OutOfBounds)
    else if Taken(moves, cmd.x, cmd.y) then
      assert Violates(PositionTaken, game, moves, cmd);
      Some(PositionTaken)
    else None
  }

  /** The game after `newMove`, already appended to `all`, has been saved. */
  function Conclude(game: Game, all: seq<Move>, newMove: Move): (g: Game)
  {
    if HasPlayerWon(all, newMove) then game.(status := WinsOf(newMove.player))
    else if |all| == 9 then game.(status := Draw)
    else game.(playerTurn := NextPlayer(newMove.player))
  }

  /**
   * The game logic of `processMove`: validate, append the move, conclude.
   * Persistence is left to the caller.
   */
  function Apply(game: Game, moves: seq<Move>, cmd: MakeMoveCommand): (r: Result<Snapshot>)
    ensures r.Err? <==> ValidateGameState(game, moves, cmd).Some?
    ensures r.Err? ==> r.error == ValidateGameState(game, moves, cmd).value
    ensures game.status != InProgress ==> r == Err(GameFinished)
    ensures r.Ok? ==> var m := Move(cmd.player, cmd.x, cmd.y);
              && r.value.moves == moves + [m]
              && m.player == game.playerTurn
              && r.value.game.id == game.id
    ensures r.Ok? ==> var m := Move(cmd.player, cmd.x, cmd.y);
              if HasPlayerWon(r.value.moves, m) then
                r.value.game.status == WinsOf(game.playerTurn) && r.value.game.playerTurn == game.playerTurn
              else if |r.value.moves| == 9 then
                r.value.game.status == Draw && r.value.game.playerTurn == game.playerTurn
              else
                r.value.game.status == InProgress && r.value.game.playerTurn == NextPlayer(game.playerTurn)
  {
    match ValidateGameState(game, moves, cmd)
    case Some(e) => Err(e)
    case None =>
      var newMove := Move(cmd.player, cmd.x, cmd.y);
      var all := moves + [newMove];
      Ok(Snapshot(Conclude(game, all, newMove), all))
  }

  /** Move `i` of a history was played by X when `i` is even and by O when it is odd. */
  predicate Alternating(s: seq<Move>)
  {
    forall i :: 0 <= i < |s| ==> s[i].player == PlayerAt(i)
  }

  /** `p` has won: it owns a line, made the last move, keeps the turn, and the other player owns no line. */
  predicate WonBy(game: Game, moves: seq<Move>, p: PlayerSymbol)
  {
    && 0 < |moves| && moves[|moves| - 1].player == p
    && game.playerTurn == p
    && OwnsAnyLine(moves, p) && !OwnsAnyLine(moves, NextPlayer(p))
  }

  /** Every state a game reaches from creation through accepted moves. */
  predicate Consistent(game: Game, moves: seq<Move>)
  {
    && AllInBounds(moves) && NoDupCells(moves) && Alternating(moves)
    && match game.status
       case InProgress =>
         && |moves| < 9 && game.playerTurn == PlayerAt(|moves|)
         && !OwnsAnyLine(moves, X) && !OwnsAnyLine(moves, O)
       case Draw =>
         && |moves| == 9 && game.playerTurn == moves[8].player
         && !OwnsAnyLine(moves, X) && !OwnsAnyLine(moves, O)
       case XWins => WonBy(game, moves, X)
       case OWins => WonBy(game, moves, O)
  }

  /**
   * On a game where nobody owns a line yet, the service's local check after
   * a move agrees with the global one: the mover wins exactly when it now
   * owns some line of the board, and the other player never gains a line.
   */
  lemma LocalWinCheckIsGlobal(moves: seq<Move>, m: Move)
    requires AllInBounds(moves + [m]) && NoDupCells(moves + [m])
    requires !OwnsAnyLine(moves, X) && !OwnsAnyLine(moves, O)
    ensures HasPlayerWon(moves + [m], m) <==> OwnsAnyLine(moves + [m], m.player)
    ensures !OwnsAnyLine(moves + [m], NextPlayer(m.player))
  {
    var all := moves + [m];
    assert all[|moves|] == m;
    HasPlayerWonIffLineThroughOwned(all, m);
    forall l | l in AllLines
      ensures Owns(all, m.player, l) ==> CellOf(m) in LineCells(l)
      ensures !Owns(all, NextPlayer(m.player), l)
    {
      NewMoveOnlyCompletesItsLines(moves, m, m.player, l);
      NewMoveOnlyCompletesItsLines(moves, m, NextPlayer(m.player), l);
    }
  }

  /** Every accepted move takes a consistent game to a consistent game. */
  lemma ApplyPreservesConsistent(game: Game, moves: seq<Move>, cmd: MakeMoveCommand)
    requires Consistent(game, moves)
    requires Apply(game, moves, cmd).Ok?
    ensures Consistent(Apply(game, moves, cmd).value.game, Apply(game, moves, cmd).value.moves)
  {
    var m := Move(cmd.player, cmd.x, cmd.y);
    var all := moves + [m];
    var next := Apply(game, moves, cmd).value.game;
    assert game.status == InProgress && m.player == PlayerAt(|moves|);
    NoDupSnoc(moves, m);
    assert all[|moves|] == m;
    assert AllInBounds(all) && Alternating(all);
    LocalWinCheckIsGlobal(moves, m);
    PlayerAtAlternates(|moves|);
    if !HasPlayerWon(all, m) && |all| != 9 {
      AtMostNineMoves(all);
    }
    assert m.player == X ==> NextPlayer(m.player) == O;
    assert m.player == O ==> NextPlayer(m.player) == X;
  }

  /** A consistent history has at most nine moves. */
  lemma ConsistentHistoryFitsBoard(game: Game, moves: seq<Move>)
    requires Consistent(game, moves)
    ensures |moves| <= 9
    ensures game.status == Draw ==> forall x: Int32, y: Int32 :: InBounds(x, y) ==> Taken(moves, x, y)
  {
    AtMostNineMoves(moves);
    if game.status == Draw {
      NineMovesFillBoard(moves);
    }
  }

  /** The occupancy check of validation reads the same as the board of the game's details. */
  lemma TakenIffBoardOccupied(moves: seq<Move>, x: Int32, y: Int32)
    requires AllInBounds(moves) && InBounds(x, y)
    ensures Project(moves).Some?
    ensures Taken(moves, x, y) <==> Project(moves).value[x][y].Some?
  {
    ProjectShowsLastMove(moves);
  }

  /** An accepted move changes the board by exactly its own cell, which now shows the mover. */
  lemma AcceptedMoveBoard(game: Game, moves: seq<Move>, cmd: MakeMoveCommand)
    requires AllInBounds(moves)
    requires Apply(game, moves, cmd).Ok?
    ensures var after := Project(Apply(game, moves, cmd).value.moves);
            && after.Some? && Project(moves).Some?
            && forall x, y :: InBounds(x, y) ==>
                 after.value[x][y] ==
                   (if x == cmd.x && y == cmd.y then Some(cmd.player) else Project(moves).value[x][y])
  {
    PlaceSnoc(EmptyBoard(), moves, Move(cmd.player, cmd.x, cmd.y));
  }
}

=== FILE: windetection.dfy ===
/**
 * Win detection after a move: the service filters the mover's moves along
 * the row, the column and (when the played cell lies on them) the two
 * diagonals through the played cell, and declares a win when one of those
 * filters keeps exactly three moves. This module states that check as the
 * service computes it and proves it equal to the geometric rule "the mover
 * owns every cell of some line through the played cell".
 */
module WinDetection {
  import opened GameModel
  import opened MoveHistory

  datatype Line = Row(i: Int32) | Col(j: Int32) | MainDiagonal | AntiDiagonal

  /** The eight lines of the board. */
  const AllLines: seq<Line> :=
    [Row(0), Row(1), Row(2), Col(0), Col(1), Col(2), MainDiagonal, AntiDiagonal]

  /** The three cells of a line. */
  function LineCells(l: Line): set<Cell>
  {
    match l
    case Row(i) => {Cell(i, 0), Cell(i, 1), Cell(i, 2)}
    case Col(j) => {Cell(0, j), Cell(1, j), Cell(2, j)}
    case MainDiagonal => {Cell(0, 0), Cell(1, 1), Cell(2, 2)}
    case AntiDiagonal => {Cell(0, 2), Cell(1, 1), Cell(2, 0)}
  }

  /** `p` has a move on every cell of `l`. */
  predicate Owns(s: seq<Move>, p: PlayerSymbol, l: Line)
  {
    forall c <- LineCells(l) :: Move(p, c.x, c.y) in s
  }

  /** `p` owns some line of the board. */
  predicate OwnsAnyLine(s: seq<Move>, p: PlayerSymbol)
  {
    exists l <- AllLines :: Owns(s, p, l)
  }

  /** The stream filters of the win check. */
  datatype Filter =
    | OfPlayer(p: PlayerSymbol)  // the moves of one player
    | Along(l: Line)             // the row, column or diagonal test

  predicate Keeps(f: Filter, m: Move)
  {
    match f
    case OfPlayer(p) => m.player == p
    case Along(Row(i)) => m.x == i
    case Along(Col(j)) => m.y == j
    case Along(MainDiagonal) => m.x == m.y
    case Along(AntiDiagonal) => Add32(m.x, m.y) == 2
  }

  /**
   * The moves of `s` that `f` keeps, in their original order: every kept
   * move as often as it occurs in `s`, so `|r|` is the stream's `count()`.
   */
  function Select(s: seq<Move>, f: Filter): (r: seq<Move>)
    ensures forall m :: m in r <==> m in s && Keeps(f, m)
    ensures |r| <= |s|
  {
    if |s| == 0 then []
    else
      var last := s[|s| - 1];
      assert s == s[..|s| - 1] + [last];
      Select(s[..|s| - 1], f) + (if Keeps(f, last) then [last] else [])
  }

  /**
   * `Select` drops no occurrence of a kept move: each kept move appears in
   * the result exactly as often as in `s`, so the result's length is the
   * number of kept elements of `s`, duplicates included.
   */
  lemma {:induction false} SelectKeepsEveryOccurrence(s: seq<Move>, f: Filter)
    ensures forall m :: multiset(Select(s, f))[m] == (if Keeps(f, m) then multiset(s)[m] else 0)
    decreases |s|
  {
    if |s| > 0 {
      var init, last := s[..|s| - 1], s[|s| - 1];
      assert s == init + [last];
      SelectKeepsEveryOccurrence(init, f);
      assert Select(s, f) == Select(init, f) + (if Keeps(f, last) then [last] else []);
    }
  }

  /** `hasPlayerWon`: whether the move `last`, already appended to `moves`, wins. */
  predicate HasPlayerWon(moves: seq<Move>, last: Move)
  {
    var playerMoves := Select(moves, OfPlayer(last.player));
    var x, y := last.x, last.y;
    var rowWin := |Select(playerMoves, Along(Row(x)))| == 3;
    var colWin := |Select(playerMoves, Along(Col(y)))| == 3;
    var mainDiagonalWin := x == y && |Select(playerMoves, Along(MainDiagonal))| == 3;
    var antiDiagonalWin := Add32(x, y) == 2 && |Select(playerMoves, Along(AntiDiagonal))| == 3;
    rowWin || colWin || mainDiagonalWin || antiDiagonalWin
  }

  lemma {:induction false} SelectKeepsNoDup(s: seq<Move>, f: Filter)
    requires NoDupCells(s)
    ensures NoDupCells(Select(s, f))
  {
    if |s| > 0 {
      var init, last := s[..|s| - 1], s[|s| - 1];
      assert NoDupCells(init) by {
        assert forall i :: 0 <= i < |init| ==> init[i] == s[i];
      }
      SelectKeepsNoDup(init, f);
      if Keeps(f, last) {
        var r := Select(init, f);
        assert !Taken(r, last.x, last.y) by {
          forall i | 0 <= i < |r|
            ensures CellOf(r[i]) != CellOf(last)
          {
            assert r[i] in init;
            var k :| 0 <= k < |init| && init[k] == r[i];
            assert init[k] == s[k];
          }
        }
        NoDupSnoc(r, last);
      }
    }
  }

  /** Inside the board, the line filters of `hasPlayerWon` select exactly the cells of the line. */
  lemma AlongIffOnLine(l: Line, m: Move)
    requires l in AllLines && InBounds(m.x, m.y)
    ensures Keeps(Along(l), m) <==> CellOf(m) in LineCells(l)
  {
  }

  lemma LineCellsInGrid(l: Line)
    requires l in AllLines
    ensures forall c <- LineCells(l) :: InBounds(c.x, c.y)
    ensures |LineCells(l)| == 3
  {
  }

  /** The cells a line filter keeps of a player's moves all lie on the line. */
  lemma KeptCellsOnLine(s: seq<Move>, p: PlayerSymbol, l: Line)
    requires AllInBounds(s) && l in AllLines
    ensures CellSet(Select(Select(s, OfPlayer(p)), Along(l))) <= LineCells(l)
  {
    var mine := Select(s, OfPlayer(p));
    var onLine := Select(mine, Along(l));
    forall c | c in CellSet(onLine)
      ensures c in LineCells(l)
    {
      var i :| 0 <= i < |onLine| && CellOf(onLine[i]) == c;
      assert onLine[i] in mine;
      AlongIffOnLine(l, onLine[i]);
    }
  }

  /** A player owns a line exactly when the line filter keeps a move of theirs on each of its cells. */
  lemma OwnedIffKeptCoverLine(s: seq<Move>, p: PlayerSymbol, l: Line)
    requires AllInBounds(s) && NoDupCells(s) && l in AllLines
    ensures Owns(s, p, l) <==> LineCells(l) <= CellSet(Select(Select(s, OfPlayer(p)), Along(l)))
  {
    var mine := Select(s, OfPlayer(p));
    var onLine := Select(mine, Along(l));
    LineCellsInGrid(l);
    forall c | c in LineCells(l)
      ensures Move(p, c.x, c.y) in s <==> c in CellSet(onLine)
    {
      var m := Move(p, c.x, c.y);
      if m in s {
        assert m in mine;
        AlongIffOnLine(l, m);
        var i :| 0 <= i < |onLine| && onLine[i] == m;
      }
      if c in CellSet(onLine) {
        var i :| 0 <= i < |onLine| && CellOf(onLine[i]) == c;
        assert onLine[i] in mine;
        assert onLine[i] == m;
      }
    }
  }

  /**
   * Given a history that repeats no cell and stays on the board, a filter
   * along a line keeps exactly three of the player's moves if and only if
   * the player owns the whole line.
   */
  lemma LineCountIffOwned(s: seq<Move>, p: PlayerSymbol, l: Line)
    requires AllInBounds(s) && NoDupCells(s) && l in AllLines
    ensures |Select(Select(s, OfPlayer(p)), Along(l))| == 3 <==> Owns(s, p, l)
  {
    var mine := Select(s, OfPlayer(p));
    var onLine := Select(mine, Along(l));
    var cells := LineCells(l);
    SelectKeepsNoDup(s, OfPlayer(p));
    SelectKeepsNoDup(mine, Along(l));
    DistinctCellsCount(onLine);
    LineCellsInGrid(l);
    KeptCellsOnLine(s, p, l);
    OwnedIffKeptCoverLine(s, p, l);
    if |onLine| == 3 {
      SubsetSameCardEqual(CellSet(onLine), cells);
    }
    if cells <= CellSet(onLine) {
      SubsetCard(CellSet(onLine), cells);
      SubsetCard(cells, CellSet(onLine));
    }
  }

  /** The cells of a line pin the line down. */
  lemma CellOnLine(l: Line, c: Cell)
    requires l in AllLines && c in LineCells(l)
    ensures l.Row? ==> l.i == c.x
    ensures l.Col? ==> l.j == c.y
    ensures l.MainDiagonal? ==> c.x == c.y
    ensures l.AntiDiagonal? ==> c.x + c.y == 2
  {
  }

  /**
   * `hasPlayerWon`, which looks only at the lines through the played cell,
   * holds exactly when the mover owns some line of the board that passes
   * through the played cell.
   */
  lemma HasPlayerWonIffLineThroughOwned(s: seq<Move>, m: Move)
    requires AllInBounds(s) && NoDupCells(s) && InBounds(m.x, m.y)
    ensures HasPlayerWon(s, m) <==>
              exists l <- AllLines :: CellOf(m) in LineCells(l) && Owns(s, m.player, l)
  {
    var p, x, y := m.player, m.x, m.y;
    var mine := Select(s, OfPlayer(p));
    assert Add32(x, y) == x + y;
    assert Row(x) in AllLines && Col(y) in AllLines;
    LineCountIffOwned(s, p, Row(x));
    LineCountIffOwned(s, p, Col(y));
    if x == y {
      LineCountIffOwned(s, p, MainDiagonal);
    }
    if x + y == 2 {
      LineCountIffOwned(s, p, AntiDiagonal);
    }
    if HasPlayerWon(s, m) {
      if |Select(mine, Along(Row(x)))| == 3 {
        assert CellOf(m) in LineCells(Row(x)) && Owns(s, p, Row(x));
      } else if |Select(mine, Along(Col(y)))| == 3 {
        assert CellOf(m) in LineCells(Col(y)) && Owns(s, p, Col(y));
      } else if x == y && |Select(mine, Along(MainDiagonal))| == 3 {
        assert CellOf(m) in LineCells(MainDiagonal) && Owns(s, p, MainDiagonal);
      } else {
        assert CellOf(m) in LineCells(AntiDiagonal) && Owns(s, p, AntiDiagonal);
      }
    } else {
      forall l | l in AllLines && CellOf(m) in LineCells(l)
        ensures !Owns(s, p, l)
      {
        CellOnLine(l, CellOf(m));
      }
    }
  }

  /**
   * Appending a move adds to a player's lines only a line of the mover
   * through the cell of that move.
   */
  lemma NewMoveOnlyCompletesItsLines(s: seq<Move>, m: Move, p: PlayerSymbol, l: Line)
    ensures Owns(s + [m], p, l) ==> Owns(s, p, l) || (m.player == p && CellOf(m) in LineCells(l))
  {
    if Owns(s + [m], p, l) && !Owns(s, p, l) {
      var c :| c in LineCells(l) && Move(p, c.x, c.y) !in s;
      assert Move(p, c.x, c.y) in s + [m];
    }
  }
}
